=== FILE: README.md ===
# Score screen of an arcade shooter, modelled in Dafny

This project models the score screen of a small Space Invaders style game
(`src/screen/ScoreScreen.java`), together with the parts of its base class
`Screen` that the score screen relies on: the `isRunning` flag, the
`nextScreenTpe` field (initially `EndGame`) and the frame loop of `run()`.

The score screen is built from the finished game's summary and from the
high-score table loaded from storage. It decides once, at construction,
whether the run is a new record. That holds when the table has fewer than
seven entries, or when the table's last entry scores strictly less than the run.
While the record is pending, the player edits a three-letter name, starting
from "AAA", with the direction keys. ESC returns to the title screen and
SPACE starts a new game. Either key first saves a pending record: the entry
is appended, the table is sorted, its last entry is dropped when it exceeds
seven entries, and the table is handed to storage.

Files and modules:

- `NameEntry.dfy` (module `NameEntry`): Java `char` as a 16-bit newtype, the
  cyclic cursor steps (RIGHT, LEFT), the cyclic letter steps (UP, DOWN) and
  `Edit`, one frame of name editing as a function.
- `HighScores.dfy` (module `HighScores`): the `Score` entry, the new-record
  predicate, the sort used by `Collections.sort`, and `SavedTable`, the table
  `saveScore()` leaves behind. It also holds the lemmas that connect them.
- `Screens.dfy` (module `Screens`): the class `ScoreScreen`. Its constructor,
  `Update` (split into `HandleExitKeys` and `HandleNameKeys`, in the source's
  order), `SaveScore`, the inherited loop `LoopRun` and the overriding `Run`
  update the object's fields in place. The name is an `array` of three
  characters, as in the source.

Modelling decisions:

- A failed load of the table (the caught `IOException`) is the constructor
  argument `None`. The field `highScores` then stays `None`, standing for the
  Java field that is never assigned. The class invariant `Valid()` says that
  a pending record implies a loaded table, so `SaveScore` never touches a
  missing table.
- The two cooldowns (`inputDelay`, `selectionCooldown`) are inputs. Each frame
  says whether each cooldown has finished. Resets of the selection cooldown
  are counted in the ghost field `selectionResets`.
- Every table handed to storage is appended to the ghost field `saved`.
  A failed save changes no state in the source, so it needs no separate case.
- `Collections.sort` with `Score`'s ordering is modelled as a stable sort,
  descending by score (`SortByScore`, an insertion sort). `Score` is not part
  of this model. The descending order is an assumption. It agrees with the
  constructor treating the last entry as the lowest. Stability is what
  `Collections.sort` guarantees: a new entry lands after the entries with an
  equal score.
- The frame loop runs over a finite sequence of `Frame` values, one per
  frame: the two cooldown results, the keys held, and whether the pause after
  the frame was interrupted.

Three behaviours of the code worth noting:

- `Screen.run()` returns `EndGame` on both of its exits, not `nextScreenTpe`.
  `ScoreScreen.run()` ignores that value and returns `nextScreenTpe`. So for
  this screen, an interrupted pause does not force `EndGame`. `Run` returns
  whatever `nextScreenTpe` holds at that point.
- The name array exists, and starts as "AAA", whether or not a record is
  pending.
- In a single frame, the four direction checks are independent. RIGHT with UP
  moves the cursor and then edits the newly selected slot, and UP with DOWN
  cancel out. The edit block also runs in the frame that exits and saves. The
  save uses the name as it was before that frame's edits.

## Model

| member | source | states |
|---|---|---|
| `NameEntry.CursorRight` | src/screen/ScoreScreen.java:150-154 | on a slot 0..2, RIGHT gives the next slot modulo 3 (0→1→2→0) and stays in 0..2 |
| `NameEntry.CursorLeft` | src/screen/ScoreScreen.java:155-159 | on a slot 0..2, LEFT gives the previous slot modulo 3 (0→2→1→0), stays in 0..2, and RIGHT undoes it |
| `NameEntry.CharUp` | src/screen/ScoreScreen.java:160-166 | 'Z' becomes 'A'; any other code is incremented modulo 2^16, as the `(char)` cast does; a letter 'A'..'Z' stays a letter |
| `NameEntry.CharDown` | src/screen/ScoreScreen.java:167-173 | 'A' becomes 'Z'; any other code is decremented modulo 2^16, as the `(char)` cast does; a letter stays a letter and UP undoes DOWN on it |
| `NameEntry.StepsAreInvertible` | src/screen/ScoreScreen.java:150-173 | DOWN undoes UP on letters and LEFT undoes RIGHT on slots |
| `NameEntry.CharUpAdvances` | src/screen/ScoreScreen.java:160-166 | on letters, UP advances the alphabet position by one, modulo 26 |
| `NameEntry.UpTimesCycles` | src/screen/ScoreScreen.java:160-166 | n UP presses advance a letter by n modulo 26 and keep it a letter |
| `NameEntry.FullCycle` | src/screen/ScoreScreen.java:160-166 | 26 UP presses give every letter back |
| `NameEntry.Edit` | src/screen/ScoreScreen.java:149-174 | one editing frame: the cursor moves by RIGHT (+1) and LEFT (+2) modulo 3; only the slot selected after the move can change; with neither UP nor DOWN, or with both on a letter, the name is unchanged; UP alone and DOWN alone step that slot; an all-letter name stays all letters |
| `HighScores.IsNewRecord` | src/screen/ScoreScreen.java:91-93 | a record implies fewer than 7 entries or some entry scoring strictly less; on a sorted table, some entry scoring strictly less implies a record (an equal score does not qualify) |
| `HighScores.FirstBelowSplits` | src/screen/ScoreScreen.java:184 | the insertion point splits the table into entries scoring at least the value and the first entry scoring less |
| `HighScores.Insert` | src/screen/ScoreScreen.java:184 | one insertion step of the sort grows the table by one and starts with the new entry or the old first entry |
| `HighScores.InsertPosition` | src/screen/ScoreScreen.java:184 | an inserted entry goes after every entry scoring at least as much, and the other entries keep their order (stability) |
| `HighScores.InsertPermutes` | src/screen/ScoreScreen.java:184 | insertion is a permutation of the table plus the new entry |
| `HighScores.InsertSorted` | src/screen/ScoreScreen.java:184 | inserting into a table sorted by descending score keeps it sorted |
| `HighScores.SortByScore` | src/screen/ScoreScreen.java:184 | the sort's result is sorted by descending score and has its input's length |
| `HighScores.SortPermutes` | src/screen/ScoreScreen.java:184 | the sort's result is a permutation of its input |
| `HighScores.InsertLowest` | src/screen/ScoreScreen.java:184 | an entry scoring no more than all others is placed last |
| `HighScores.SortedIsFixed` | src/screen/ScoreScreen.java:184 | sorting an already sorted table changes nothing |
| `HighScores.SavedTable` | src/screen/ScoreScreen.java:183-186 | after a save the table is sorted; it grows by one below 7 entries and keeps its length from 7 on; a table of at most 7 stays at most 7; its entries are the old ones plus the new one, minus at most one, and exactly all of them below 7 |
| `HighScores.DropsLowest` | src/screen/ScoreScreen.java:185-186 | when the table overflows, the entry removed scores no more than any entry kept |
| `HighScores.SavedTableOfSorted` | src/screen/ScoreScreen.java:183-186 | on a sorted table, a save is an insertion after equal scores followed by dropping the overflow |
| `HighScores.LastIsLowest` | src/screen/ScoreScreen.java:91-93 | in a sorted table the last entry scores no more than any entry, which is why the decision reads only the last one |
| `HighScores.RecordIsKept` | src/screen/ScoreScreen.java:91-93 | a run the new-record predicate accepts is present in the table after the save |
| `HighScores.NotRecordKeepsTable` | src/screen/ScoreScreen.java:183-186 | on a sorted table, saving a run the decision rejects gives back the table unchanged |
| `HighScores.InsertKeepsLast` | src/screen/ScoreScreen.java:184 | an entry scoring more than the last entry of a sorted table is sorted in before it, so the old last entry stays last |
| `HighScores.RecordReplacesLast` | src/screen/ScoreScreen.java:183-186 | a record on a full sorted table pushes out the old last entry, so the saved table holds one more copy of the record than before |
| `HighScores.RecordIffKept` | src/screen/ScoreScreen.java:91-93 | on a sorted table, the decision holds exactly when the save adds one more copy of the entry; otherwise the save returns the table unchanged |
| `HighScores.SaveAllKeepsBound` | src/screen/ScoreScreen.java:182-186 | any number of successive saves keeps a table of at most 7 entries at most 7, and sorted after the first save |
| `Screens.StopFrame` | src/screen/Screen.java:101-113 | locates the first frame that exits or is interrupted; every earlier frame does neither |
| `Screens.ScoreScreen.constructor` | src/screen/ScoreScreen.java:76-99 | copies the summary; the name is "AAA" with slot 0 selected; the record flag holds iff the load succeeded and the table has fewer than 7 entries or a last entry scoring strictly less; a failed load leaves the table unassigned; next screen is EndGame |
| `Screens.ScoreScreen.SaveScore` | src/screen/ScoreScreen.java:182-193 | the table becomes `SavedTable` of the old table and (name, score), and exactly that table is handed to storage |
| `Screens.ScoreScreen.HandleExitKeys` | src/screen/ScoreScreen.java:135-147 | ESC sets TitleScreen, otherwise SPACE sets GameScreen; either stops the screen and saves exactly when a record is pending; otherwise nothing changes |
| `Screens.ScoreScreen.HandleNameKeys` | src/screen/ScoreScreen.java:149-174 | the name and cursor become `Edit` of the old ones, and the cooldown is reset once per direction key honoured |
| `Screens.ScoreScreen.Update` | src/screen/ScoreScreen.java:130-177 | nothing changes before the input delay finishes; then exit keys stop the screen and save a pending record using the name before this frame's edits; name edits need a pending record and a finished selection cooldown; letters and cursor range are preserved |
| `Screens.ScoreScreen.LoopRun` | src/screen/Screen.java:98-117 | the loop stops exactly at the first exiting frame or interrupted pause; it always returns EndGame; the screen stops only if that frame exits, with the next screen it chose; at most one save happens, and one happens exactly when the screen stopped with a pending record; that save writes `SavedTable` of the table held when the loop starts and (some all-letter three-character name, the score); otherwise the table is unchanged |
| `Screens.ScoreScreen.Run` | src/screen/ScoreScreen.java:115-125 | returns `nextScreenTpe`: the exiting frame's choice (ESC → TitleScreen, SPACE → GameScreen), or the earlier value when no frame exits before the loop ends; the screen stops exactly when, of the frames that exit or are interrupted, the first one exits; it saves exactly when the screen stops with a pending record; a save writes `SavedTable` of the table held at the start and (an all-letter three-character name, the score), so the table is sorted and a table of at most 7 entries stays at most 7; without a save the table is unchanged |

## Left out

- `draw()` and every `DrawManager` call, including the accuracy
  `shipsDestroyed / bulletsShot` as a float: rendering and floating point.
- The logger output in `run()` and the warnings on load and save failures:
  logging only.
- File I/O in `FileManager.loadHighScores` and `saveHighScores`. A load is
  the constructor's `Option` argument. A save is a record in the ghost field
  `saved`. A save failure changes nothing else.
- `Cooldown` timing: `checkFinished()` results are inputs, and `reset()` is
  counted in a ghost field. Rate limiting across frames therefore depends on
  the caller's inputs. The model states only that no edit happens while the
  cooldown has not finished.
- Frame pacing in `Screen.run()`: `System.currentTimeMillis`, the sleep and
  `Main.FPS`. An interrupted sleep is a per-frame flag.
- `Screens.ScoreScreen.LoopRun`: runs over a finite sequence of frames. When
  the sequence ends while the screen is still running, the model stops, where
  the program would keep looping.
- `Screens.ScoreScreen.LoopRun`: states that the saved table is `SavedTable`
  of the table held at the start and the score with some all-letter three-character
  name, but not which name. It also leaves open the final name, cursor and
  count of cooldown resets. All of these depend on every earlier frame's edits.
  `Screens.ScoreScreen.Update` states the saved table exactly.
- `Score.compareTo` is not part of this model. The sort is assumed descending
  by score and stable.
- `getScreenType()`, `getNextScreenType()`, `initialize()`, `show()`,
  `getWidth()` and `getHeight()`: these are getters and UI wrappers.
- Java's 32-bit `int` for the score: the screen only compares scores and
  never does arithmetic on them, so unbounded integers behave the same.

=== FILE: HighScores.dfy ===
/** The high-score table kept by the score screen: the new-record decision
    and the append / sort / truncate update performed when a record is saved. */
module HighScores {
  import opened NameEntry

  /** Maximum number of entries the table keeps (MAX_HIGH_SCORE_NUM). */
  const MAX_HIGH_SCORE_NUM := 7

  /** One entry of the table: the player's name and the score reached. */
  datatype Score = Score(name: seq<JavaChar>, value: int)

  /** Ordered as `Collections.sort` leaves it: descending by score. */
  predicate SortedDesc(t: seq<Score>) {
    forall i, j :: 0 <= i < j < |t| ==> t[i].value >= t[j].value
  }

  /** The new-record decision: the table is not full yet, or its last entry
      scores strictly less than the run's score. A record always beats some
      entry of a full table; on a sorted table the decision is equivalent to:
      fewer than MAX_HIGH_SCORE_NUM entries, or some entry scoring strictly
      less (so an equal score does not qualify). */
  predicate IsNewRecord(t: seq<Score>, score: int): (r: bool)
    ensures r ==> |t| < MAX_HIGH_SCORE_NUM || exists i :: 0 <= i < |t| && t[i].value < score
    ensures SortedDesc(t) && (exists i :: 0 <= i < |t| && t[i].value < score) ==> r
  {
    |t| < MAX_HIGH_SCORE_NUM || t[|t| - 1].value < score
  }

  /** Index of the first entry that scores strictly less than `value`
      (or |t| when there is none). */
  function FirstBelow(t: seq<Score>, value: int): (k: nat)
    ensures k <= |t|
  {
    if t == [] || t[0].value < value then 0 else 1 + FirstBelow(t[1..], value)
  }

  /** Every entry before FirstBelow scores at least `value`; the one at it, less. */
  lemma {:induction false} FirstBelowSplits(t: seq<Score>, value: int)
    ensures var k := FirstBelow(t, value);
            (forall i :: 0 <= i < k ==> t[i].value >= value) &&
            (k < |t| ==> t[k].value < value)
  {
    if t != [] && t[0].value >= value {
      FirstBelowSplits(t[1..], value);
    }
  }

  /** Insertion of one entry before the first entry that scores strictly less,
      so after every entry with an equal score: one step of a stable sort. */
  function Insert(t: seq<Score>, e: Score): (r: seq<Score>)
    ensures |r| == |t| + 1
    ensures r[0] == e || (t != [] && r[0] == t[0])
  {
    if t == [] || t[0].value < e.value then [e] + t
    else [t[0]] + Insert(t[1..], e)
  }

  /** Insertion adds the entry and loses none: the result is a permutation of
      the table plus the entry. */
  lemma {:induction false} InsertPermutes(t: seq<Score>, e: Score)
    ensures multiset(Insert(t, e)) == multiset(t) + multiset{e}
  {
    if t != [] && t[0].value >= e.value {
      InsertPermutes(t[1..], e);
      assert t == [t[0]] + t[1..];
    }
  }

  /** Insert puts the entry at FirstBelow, after all entries that score at
      least as much, and leaves the other entries in their order. */
  lemma {:induction false} InsertPosition(t: seq<Score>, e: Score)
    ensures var k := FirstBelow(t, e.value); Insert(t, e) == t[..k] + [e] + t[k..]
  {
    if t == [] || t[0].value < e.value {
      assert FirstBelow(t, e.value) == 0;
      assert Insert(t, e) == [e] + t;
      assert t[..0] == [] && t[0..] == t;
    } else {
      var rest := t[1..];
      InsertPosition(rest, e);
      var k' := FirstBelow(rest, e.value);
      assert FirstBelow(t, e.value) == k' + 1;
      calc {
        Insert(t, e);
        [t[0]] + Insert(rest, e);
        [t[0]] + (rest[..k'] + [e] + rest[k'..]);
        { assert t[..k' + 1] == [t[0]] + rest[..k'];
          assert t[k' + 1..] == rest[k'..]; }
        t[..k' + 1] + [e] + t[k' + 1..];
      }
    }
  }

  /** Insertion into a sorted table keeps it sorted. */
  lemma {:induction false} InsertSorted(t: seq<Score>, e: Score)
    requires SortedDesc(t)
    ensures SortedDesc(Insert(t, e))
  {
    if t != [] && t[0].value >= e.value {
      InsertSorted(t[1..], e);
      var r := Insert(t, e);
      assert r == [t[0]] + Insert(t[1..], e);
      InsertPermutes(t[1..], e);
      assert forall j :: 0 < j < |r| ==> r[j] in multiset(Insert(t[1..], e));
    }
  }

  /** `Collections.sort` with the descending score order: a stable sort,
      written as insertion sort of the table's last entry into the sorted rest. */
  function SortByScore(t: seq<Score>): (r: seq<Score>)
    ensures SortedDesc(r)
    ensures |r| == |t|
    decreases |t|
  {
    if t == [] then []
    else
      var rest := SortByScore(t[..|t| - 1]);
      InsertSorted(rest, t[|t| - 1]);
      Insert(rest, t[|t| - 1])
  }

  /** The sort is a permutation: no entry is lost, duplicated or invented. */
  lemma {:induction false} SortPermutes(t: seq<Score>)
    ensures multiset(SortByScore(t)) == multiset(t)
    decreases |t|
  {
    if t != [] {
      var p, last := t[..|t| - 1], t[|t| - 1];
      var sp := SortByScore(p);
      assert multiset(sp) == multiset(p) by {
        SortPermutes(p);
      }
      assert multiset(Insert(sp, last)) == multiset(sp) + multiset{last} by {
        InsertPermutes(sp, last);
      }
      assert multiset(t) == multiset(p) + multiset{last} by {
        assert t == p + [last];
      }
      assert SortByScore(t) == Insert(sp, last);
    }
  }

  /** An entry that scores no more than every entry of the table is appended. */
  lemma {:induction false} InsertLowest(t: seq<Score>, e: Score)
    requires forall i :: 0 <= i < |t| ==> t[i].value >= e.value
    ensures Insert(t, e) == t + [e]
  {
    if t != [] {
      InsertLowest(t[1..], e);
      assert t == [t[0]] + t[1..];
    }
  }

  /** Sorting a table that is already sorted leaves it unchanged. */
  lemma {:induction false} SortedIsFixed(t: seq<Score>)
    requires SortedDesc(t)
    ensures SortByScore(t) == t
  {
    if t != [] {
      var p := t[..|t| - 1];
      SortedIsFixed(p);
      InsertLowest(p, t[|t| - 1]);
      assert p + [t[|t| - 1]] == t;
    }
  }

  /** The table saveScore leaves: the entry appended, the list sorted, and its
      last entry removed when there are more than MAX_HIGH_SCORE_NUM. */
  function SavedTable(t: seq<Score>, e: Score): (r: seq<Score>)
    ensures SortedDesc(r)
    ensures |t| <= MAX_HIGH_SCORE_NUM ==> |r| <= MAX_HIGH_SCORE_NUM
    ensures |r| == if |t| < MAX_HIGH_SCORE_NUM then |t| + 1 else |t|
    ensures multiset(r) <= multiset(t) + multiset{e}
    ensures |t| < MAX_HIGH_SCORE_NUM ==> multiset(r) == multiset(t) + multiset{e}
  {
    var sorted := SortByScore(t + [e]);
    SortPermutes(t + [e]);
    if |sorted| > MAX_HIGH_SCORE_NUM then
      assert sorted == sorted[..|sorted| - 1] + [sorted[|sorted| - 1]];
      sorted[..|sorted| - 1]
    else sorted
  }

  /** When the table overflows, the entry dropped is one that scores no more
      than any entry kept. */
  lemma DropsLowest(t: seq<Score>, e: Score)
    requires |t| >= MAX_HIGH_SCORE_NUM
    ensures var r := SavedTable(t, e);
            exists d :: multiset(t) + multiset{e} == multiset(r) + multiset{d} &&
                        forall i :: 0 <= i < |r| ==> r[i].value >= d.value
  {
    var sorted := SortByScore(t + [e]);
    SortPermutes(t + [e]);
    var d := sorted[|sorted| - 1];
    assert sorted == sorted[..|sorted| - 1] + [d];
  }

  /** On a sorted table, saving inserts the entry after every entry with an
      equal or higher score and then drops the overflow. */
  lemma SavedTableOfSorted(t: seq<Score>, e: Score)
    requires SortedDesc(t)
    ensures var ins := Insert(t, e);
            SavedTable(t, e) == if |ins| > MAX_HIGH_SCORE_NUM then ins[..|ins| - 1] else ins
  {
    SortedIsFixed(t);
    assert (t + [e])[..|t|] == t;
  }

  /** The last entry of a sorted table scores no more than any entry in it. */
  lemma LastIsLowest(s: seq<Score>, y: Score)
    requires SortedDesc(s) && y in s
    ensures s[|s| - 1].value <= y.value
  {
  }

  /** A run that the new-record decision accepts does end up in the saved table. */
  lemma RecordIsKept(t: seq<Score>, e: Score)
    requires IsNewRecord(t, e.value)
    ensures e in SavedTable(t, e)
  {
    var sorted := SortByScore(t + [e]);
    assert e in sorted by {
      SortPermutes(t + [e]);
      assert e in multiset(t + [e]);
    }
    var n := |sorted|;
    if n > MAX_HIGH_SCORE_NUM {
      assert sorted[n - 1] != e by {
        var y := t[|t| - 1];
        assert y in sorted by {
          SortPermutes(t + [e]);
          assert (t + [e])[|t| - 1] == y;
          assert y in multiset(t + [e]);
          assert y in multiset(sorted);
        }
        LastIsLowest(sorted, y);
      }
      assert e in sorted[..n - 1] by {
        assert sorted == sorted[..n - 1] + [sorted[n - 1]];
      }
    }
  }

  /** A run the decision rejects leaves a sorted table as it was. */
  lemma NotRecordKeepsTable(t: seq<Score>, e: Score)
    requires SortedDesc(t) && !IsNewRecord(t, e.value)
    ensures SavedTable(t, e) == t
  {
    assert forall i :: 0 <= i < |t| ==> t[i].value >= t[|t| - 1].value;
    InsertLowest(t, e);
    SavedTableOfSorted(t, e);
  }

  /** An entry scoring more than the last entry of a sorted table is inserted
      before it, so the old last entry stays last. */
  lemma InsertKeepsLast(t: seq<Score>, e: Score)
    requires SortedDesc(t) && |t| > 0 && t[|t| - 1].value < e.value
    ensures Insert(t, e)[|t|] == t[|t| - 1]
  {
    var k := FirstBelow(t, e.value);
    FirstBelowSplits(t, e.value);
    assert k < |t|;
    InsertPosition(t, e);
  }

  /** A record on a full sorted table pushes out the old last entry, so the
      saved table holds one more copy of the record than before. */
  lemma RecordReplacesLast(t: seq<Score>, e: Score)
    requires SortedDesc(t) && |t| >= MAX_HIGH_SCORE_NUM && t[|t| - 1].value < e.value
    ensures multiset(SavedTable(t, e))[e] == multiset(t)[e] + 1
  {
    var ins := Insert(t, e);
    var kept := ins[..|t|];
    assert multiset(ins)[e] == multiset(kept)[e] by {
      InsertKeepsLast(t, e);
      assert ins == kept + [t[|t| - 1]];
      assert t[|t| - 1] != e;
    }
    assert multiset(ins)[e] == multiset(t)[e] + 1 by {
      InsertPermutes(t, e);
    }
    assert SavedTable(t, e) == kept by {
      SavedTableOfSorted(t, e);
    }
  }

  /** On a sorted table, the new-record decision holds exactly when saving
      adds one more copy of the entry than the table held before; otherwise
      the save gives the table back unchanged. */
  lemma RecordIffKept(t: seq<Score>, e: Score)
    requires SortedDesc(t)
    ensures IsNewRecord(t, e.value) <==> multiset(SavedTable(t, e))[e] == multiset(t)[e] + 1
    ensures !IsNewRecord(t, e.value) ==> SavedTable(t, e) == t
  {
    if !IsNewRecord(t, e.value) {
      NotRecordKeepsTable(t, e);
    } else if |t| >= MAX_HIGH_SCORE_NUM {
      RecordReplacesLast(t, e);
    }
  }

  /** The table after one save per score, in order. */
  function SaveAll(t: seq<Score>, es: seq<Score>): seq<Score>
    decreases |es|
  {
    if es == [] then t else SaveAll(SavedTable(t, es[0]), es[1..])
  }

  /** However many saves follow one another, a table of at most
      MAX_HIGH_SCORE_NUM entries stays that short, and is sorted after the first. */
  lemma {:induction false} SaveAllKeepsBound(t: seq<Score>, es: seq<Score>)
    requires |t| <= MAX_HIGH_SCORE_NUM
    ensures |SaveAll(t, es)| <= MAX_HIGH_SCORE_NUM
    ensures es != [] || SortedDesc(t) ==> SortedDesc(SaveAll(t, es))
    decreases |es|
  {
    if es != [] {
      SaveAllKeepsBound(SavedTable(t, es[0]), es[1..]);
    }
  }
}

=== FILE: NameEntry.dfy ===
/** The name-entry sub-machine of the score screen: three character slots,
    a cyclic slot cursor and cyclic character edits over 'A'..'Z'. */
module NameEntry {

  /** A Java `char`: an unsigned 16-bit code unit. */
  newtype JavaChar = c: int | 0 <= c < 0x1_0000

  /** Code of the first upper-case letter, 'A' (FIRST_CHAR). */
  const FIRST_CHAR: JavaChar := 65
  /** Code of the last upper-case letter, 'Z' (LAST_CHAR). */
  const LAST_CHAR: JavaChar := 90
  /** Number of letters in the cycle 'A'..'Z'. */
  const LETTERS := 26
  /** Number of slots in a name. */
  const NAME_LENGTH := 3
  /** The name a new record starts with, "AAA". */
  const DEFAULT_NAME: seq<JavaChar> := [FIRST_CHAR, FIRST_CHAR, FIRST_CHAR]

  predicate IsLetter(c: JavaChar) {
    FIRST_CHAR <= c <= LAST_CHAR
  }

  /** Position of a character in the alphabet ('A' is 0). */
  function Offset(c: JavaChar): int {
    c as int - FIRST_CHAR as int
  }

  /** The cursor after RIGHT: 2 wraps to 0, otherwise one slot further. */
  function CursorRight(cursor: int): (r: int)
    ensures 0 <= cursor < NAME_LENGTH ==> 0 <= r < NAME_LENGTH && r == (cursor + 1) % NAME_LENGTH
  {
    if cursor == 2 then 0 else cursor + 1
  }

  /** The cursor after LEFT: 0 wraps to 2, otherwise one slot back. */
  function CursorLeft(cursor: int): (r: int)
    ensures 0 <= cursor < NAME_LENGTH ==> 0 <= r < NAME_LENGTH && r == (cursor + 2) % NAME_LENGTH
    ensures 0 <= cursor < NAME_LENGTH ==> CursorRight(r) == cursor
  {
    if cursor == 0 then 2 else cursor - 1
  }

  /** The character after UP: 'Z' wraps to 'A'; anything else is incremented,
      with the 16-bit wrap-around of the `(char)` cast written out. */
  function CharUp(c: JavaChar): (r: JavaChar)
    ensures IsLetter(c) ==> IsLetter(r)
    ensures r as int == if c == LAST_CHAR then FIRST_CHAR as int else (c as int + 1) % 0x1_0000
  {
    if c == LAST_CHAR then FIRST_CHAR
    else if c == 0xFFFF then 0
    else (c as int + 1) as JavaChar
  }

  /** The character after DOWN: 'A' wraps to 'Z'; anything else is decremented,
      with the 16-bit wrap-around of the `(char)` cast written out. */
  function CharDown(c: JavaChar): (r: JavaChar)
    ensures IsLetter(c) ==> IsLetter(r) && CharUp(r) == c
    ensures r as int == if c == FIRST_CHAR then LAST_CHAR as int else (c as int - 1) % 0x1_0000
  {
    if c == FIRST_CHAR then LAST_CHAR
    else if c == 0 then 0xFFFF
    else (c as int - 1) as JavaChar
  }

  /** On letters and slots, LEFT undoes RIGHT and DOWN undoes UP. */
  lemma StepsAreInvertible(c: JavaChar, cursor: int)
    requires IsLetter(c) && 0 <= cursor < NAME_LENGTH
    ensures CharDown(CharUp(c)) == c
    ensures CursorLeft(CursorRight(cursor)) == cursor
  {
  }

  /** On letters UP is a step of one along the alphabet taken modulo 26. */
  lemma CharUpAdvances(c: JavaChar)
    requires IsLetter(c)
    ensures Offset(CharUp(c)) == (Offset(c) + 1) % LETTERS
  {
  }

  /** `n` successive UP edits of one slot. */
  function UpTimes(c: JavaChar, n: nat): JavaChar {
    if n == 0 then c else CharUp(UpTimes(c, n - 1))
  }

  /** UP walks the alphabet cyclically: n presses advance a letter by n modulo 26. */
  lemma {:induction false} UpTimesCycles(c: JavaChar, n: nat)
    requires IsLetter(c)
    ensures IsLetter(UpTimes(c, n)) && Offset(UpTimes(c, n)) == (Offset(c) + n) % LETTERS
  {
    if n > 0 {
      var d := UpTimes(c, n - 1);
      UpTimesCycles(c, n - 1);
      CharUpAdvances(d);
      ModSucc(Offset(c) + n - 1);
    }
  }

  /** 26 UP presses give every letter back. */
  lemma FullCycle(c: JavaChar)
    requires IsLetter(c)
    ensures UpTimes(c, LETTERS) == c
  {
    UpTimesCycles(c, LETTERS);
    assert (Offset(c) + LETTERS) % LETTERS == Offset(c);
  }

  /** (x % m + 1) % m == (x + 1) % m for m == 26. */
  lemma ModSucc(x: nat)
    ensures (x % LETTERS + 1) % LETTERS == (x + 1) % LETTERS
  {
  }

  /** The name-entry state: the three slots and the selected slot. */
  datatype Entry = Entry(name: seq<JavaChar>, cursor: int)

  predicate WellFormed(e: Entry) {
    |e.name| == NAME_LENGTH && 0 <= e.cursor < NAME_LENGTH
  }

  predicate AllLetters(name: seq<JavaChar>) {
    forall i :: 0 <= i < |name| ==> IsLetter(name[i])
  }

  /** One frame of name editing with the selection cooldown finished: the four
      direction checks are independent, in the order RIGHT, LEFT, UP, DOWN, and
      UP and DOWN edit the slot selected after the cursor moved. */
  function Edit(e: Entry, right: bool, left: bool, up: bool, down: bool): (r: Entry)
    requires WellFormed(e)
    ensures WellFormed(r)
    ensures r.cursor == (e.cursor + (if right then 1 else 0) + (if left then 2 else 0)) % NAME_LENGTH
    ensures forall i :: 0 <= i < NAME_LENGTH && i != r.cursor ==> r.name[i] == e.name[i]
    ensures !up && !down ==> r.name == e.name
    ensures up && !down ==> r.name[r.cursor] == CharUp(e.name[r.cursor])
    ensures down && !up ==> r.name[r.cursor] == CharDown(e.name[r.cursor])
    ensures up && down && IsLetter(e.name[r.cursor]) ==> r.name == e.name
    ensures AllLetters(e.name) ==> AllLetters(r.name)
  {
    var c1 := if right then CursorRight(e.cursor) else e.cursor;
    var c2 := if left then CursorLeft(c1) else c1;
    var n1 := if up then e.name[c2 := CharUp(e.name[c2])] else e.name;
    var n2 := if down then n1[c2 := CharDown(n1[c2])] else n1;
    Entry(n2, c2)
  }
}

=== FILE: Screens.dfy ===
/** The score screen shown after a game: it decides whether the run is a new
    record, lets the player enter a three-letter name, saves the record on
    exit, and reports which screen comes next. */
module Screens {
  import opened NameEntry
  import opened HighScores

  datatype Option<T> = None | Some(value: T)

  /** The screen identifiers this screen deals in; EndGame ends the application.
      The value ScoreScreen is this screen's identifier, written
      ScreenType.ScoreScreen to tell it from the class below. */
  datatype ScreenType = EndGame | TitleScreen | GameScreen | ScoreScreen

  /** The summary of the finished game the screen is built from. */
  datatype GameState = GameState(score: int, livesRemaining: int, bulletsShot: int, shipsDestroyed: int)

  /** The keys polled in one frame. */
  datatype Keys = Keys(escape: bool, space: bool, right: bool, left: bool, up: bool, down: bool)

  /** What one frame of the loop observes: whether the input delay and the
      selection cooldown have finished, the keys held down, and whether the
      pause after the frame was interrupted. */
  datatype Frame = Frame(inputDelayFinished: bool, selectionCooldownFinished: bool,
                         keys: Keys, interrupted: bool)

  /** A frame in which ESC or SPACE is honoured, ending the screen. */
  predicate Exits(f: Frame) {
    f.inputDelayFinished && (f.keys.escape || f.keys.space)
  }

  /** Where an exit goes: ESC wins over SPACE. */
  function ExitScreen(k: Keys): ScreenType {
    if k.escape then TitleScreen else GameScreen
  }

  /** Number of direction keys held, i.e. selection-cooldown resets in an editing frame. */
  function Presses(k: Keys): nat {
    (if k.right then 1 else 0) + (if k.left then 1 else 0) + (if k.up then 1 else 0) + (if k.down then 1 else 0)
  }

  /** The index of the first frame after which the loop stops: one that exits
      or whose pause is interrupted (|frames| when there is none). */
  function StopFrame(frames: seq<Frame>): (k: nat)
    ensures k <= |frames|
    ensures forall j :: 0 <= j < k ==> !Exits(frames[j]) && !frames[j].interrupted
    ensures k < |frames| ==> Exits(frames[k]) || frames[k].interrupted
  {
    if frames == [] || Exits(frames[0]) || frames[0].interrupted then 0
    else 1 + StopFrame(frames[1..])
  }

  class ScoreScreen {
    const score: int
    const livesRemaining: int
    const bulletsShot: int
    const shipsDestroyed: int
    /** Whether the run qualifies for the high-score table. */
    const isNewRecord: bool
    /** The loaded table; None when loading failed and the field was never assigned. */
    var highScores: Option<seq<Score>>
    /** The three name slots being entered. */
    const name: array<JavaChar>
    /** The slot selected for change. */
    var nameCharSelected: int
    /** Inherited loop state: whether the screen runs, and what screen comes next. */
    var isRunning: bool
    var nextScreenTpe: ScreenType
    /** Every table handed to storage, in order. */
    ghost var saved: seq<seq<Score>>
    /** How many times the selection cooldown has been reset. */
    ghost var selectionResets: nat

    ghost predicate Valid()
      reads this, name
    {
      && name.Length == NAME_LENGTH
      && 0 <= nameCharSelected < NAME_LENGTH
      && AllLetters(name[..])
      && (isNewRecord ==> highScores.Some?)
    }

    /** Builds the screen from the finished game and the result of loading the
        table (None for a failed load). */
    constructor (gameState: GameState, loaded: Option<seq<Score>>)
      ensures Valid() && fresh(name)
      ensures score == gameState.score && livesRemaining == gameState.livesRemaining
      ensures bulletsShot == gameState.bulletsShot && shipsDestroyed == gameState.shipsDestroyed
      ensures name[..] == DEFAULT_NAME && nameCharSelected == 0
      ensures highScores == loaded
      ensures isNewRecord <==> loaded.Some? && IsNewRecord(loaded.value, gameState.score)
      ensures !isRunning && nextScreenTpe == EndGame
      ensures saved == [] && selectionResets == 1
    {
      score := gameState.score;
      livesRemaining := gameState.livesRemaining;
      bulletsShot := gameState.bulletsShot;
      shipsDestroyed := gameState.shipsDestroyed;
      var record := false;
      name := new JavaChar[3] [FIRST_CHAR, FIRST_CHAR, FIRST_CHAR];
      nameCharSelected := 0;
      selectionResets := 1;
      highScores := None;
      if loaded.Some? {
        highScores := loaded;
        if IsNewRecord(loaded.value, gameState.score) {
          record := true;
        }
      }
      isNewRecord := record;
      isRunning := false;
      nextScreenTpe := EndGame;
      saved := [];
    }

    /** Appends the entry for the current name and score, sorts the table,
        drops its last entry when it has grown past MAX_HIGH_SCORE_NUM, and
        hands the table to storage. */
    method SaveScore()
      requires Valid() && isNewRecord
      modifies this`highScores, this`saved
      ensures Valid()
      ensures highScores == Some(SavedTable(old(highScores.value), Score(name[..], score)))
      ensures saved == old(saved) + [highScores.value]
    {
      var list := highScores.value + [Score(name[..], score)];
      list := SortByScore(list);
      if |list| > MAX_HIGH_SCORE_NUM {
        list := list[..|list| - 1];
      }
      highScores := Some(list);
      saved := saved + [list];
    }

    /** The exit keys: ESC returns to the title screen, otherwise SPACE plays
        again; either stops the screen and first saves a pending record. */
    method HandleExitKeys(keys: Keys)
      requires Valid()
      modifies this`nextScreenTpe, this`isRunning, this`highScores, this`saved
      ensures Valid()
      ensures if keys.escape || keys.space then !isRunning && nextScreenTpe == ExitScreen(keys)
              else isRunning == old(isRunning) && nextScreenTpe == old(nextScreenTpe)
      ensures if (keys.escape || keys.space) && isNewRecord then
                highScores == Some(SavedTable(old(highScores.value), Score(name[..], score))) &&
                saved == old(saved) + [highScores.value]
              else highScores == old(highScores) && saved == old(saved)
    {
      if keys.escape {
        nextScreenTpe := TitleScreen;
        isRunning := false;
        if isNewRecord {
          SaveScore();
        }
      } else if keys.space {
        nextScreenTpe := GameScreen;
        isRunning := false;
        if isNewRecord {
          SaveScore();
        }
      }
    }

    /** The direction keys, each checked on its own: RIGHT and LEFT rotate the
        selected slot, then UP and DOWN step the letter in the slot now
        selected; every key honoured resets the selection cooldown. */
    method HandleNameKeys(keys: Keys)
      requires Valid()
      modifies this`nameCharSelected, this`selectionResets, name
      ensures Valid()
      ensures Entry(name[..], nameCharSelected) ==
                Edit(Entry(old(name[..]), old(nameCharSelected)), keys.right, keys.left, keys.up, keys.down)
      ensures selectionResets == old(selectionResets) + Presses(keys)
    {
      if keys.right {
        nameCharSelected := CursorRight(nameCharSelected);
        selectionResets := selectionResets + 1;
      }
      if keys.left {
        nameCharSelected := CursorLeft(nameCharSelected);
        selectionResets := selectionResets + 1;
      }
      if keys.up {
        name[nameCharSelected] := CharUp(name[nameCharSelected]);
        selectionResets := selectionResets + 1;
      }
      if keys.down {
        name[nameCharSelected] := CharDown(name[nameCharSelected]);
        selectionResets := selectionResets + 1;
      }
    }

    /** One frame of the screen's logic. Nothing happens before the input delay
        has finished. Then the exit keys are handled and, independently, with a
        pending record and the selection cooldown finished, the direction keys
        edit the name; a save in this frame uses the name from before the edits. */
    method Update(inputDelayFinished: bool, selectionCooldownFinished: bool, keys: Keys)
      requires Valid()
      modifies this, name
      ensures Valid()
      ensures !inputDelayFinished ==> unchanged(this) && unchanged(name)
      ensures var f := Frame(inputDelayFinished, selectionCooldownFinished, keys, false);
              if Exits(f) then !isRunning && nextScreenTpe == ExitScreen(keys)
              else isRunning == old(isRunning) && nextScreenTpe == old(nextScreenTpe)
      ensures var f := Frame(inputDelayFinished, selectionCooldownFinished, keys, false);
              if Exits(f) && isNewRecord then
                highScores == Some(SavedTable(old(highScores.value), Score(old(name[..]), score))) &&
                saved == old(saved) + [highScores.value]
              else highScores == old(highScores) && saved == old(saved)
      ensures var before := Entry(old(name[..]), old(nameCharSelected));
              if inputDelayFinished && isNewRecord && selectionCooldownFinished then
                Entry(name[..], nameCharSelected) == Edit(before, keys.right, keys.left, keys.up, keys.down) &&
                selectionResets == old(selectionResets) + Presses(keys)
              else
                Entry(name[..], nameCharSelected) == before && selectionResets == old(selectionResets)
    {
      if inputDelayFinished {
        HandleExitKeys(keys);
        if isNewRecord && selectionCooldownFinished {
          HandleNameKeys(keys);
        }
      }
    }

    /** The inherited frame loop: runs frames while the screen is running and
        stops early when a pause is interrupted. It reports EndGame on either
        way out; timing and pacing are not modelled. */
    method LoopRun(frames: seq<Frame>) returns (r: ScreenType)
      requires Valid()
      modifies this, name
      ensures Valid()
      ensures r == EndGame
      ensures var k := StopFrame(frames);
              !isRunning <==> k < |frames| && Exits(frames[k])
      ensures var k := StopFrame(frames);
              nextScreenTpe == if isRunning then old(nextScreenTpe) else ExitScreen(frames[k].keys)
      ensures |saved| == |old(saved)| + (if !isRunning && isNewRecord then 1 else 0)
      ensures saved[..|old(saved)|] == old(saved)
      ensures !(!isRunning && isNewRecord) ==> highScores == old(highScores)
      ensures !isRunning && isNewRecord ==>
                exists nm :: |nm| == NAME_LENGTH && AllLetters(nm) &&
                  highScores == Some(SavedTable(old(highScores).value, Score(nm, score))) &&
                  saved == old(saved) + [highScores.value]
    {
      ghost var k := StopFrame(frames);
      isRunning := true;
      var i := 0;
      while isRunning && i < |frames|
        invariant Valid()
        invariant 0 <= i <= |frames|
        invariant isRunning ==>
                    i <= k && nextScreenTpe == old(nextScreenTpe) &&
                    saved == old(saved) && highScores == old(highScores)
        invariant !isRunning ==>
                    i == k + 1 && k < |frames| && Exits(frames[k]) &&
                    nextScreenTpe == ExitScreen(frames[k].keys) &&
                    |saved| == |old(saved)| + (if isNewRecord then 1 else 0) &&
                    saved[..|old(saved)|] == old(saved) &&
                    (!isNewRecord ==> highScores == old(highScores))
        invariant !isRunning && isNewRecord ==>
                    exists nm :: |nm| == NAME_LENGTH && AllLetters(nm) &&
                      highScores == Some(SavedTable(old(highScores).value, Score(nm, score))) &&
                      saved == old(saved) + [highScores.value]
        decreases |frames| - i
      {
        var f := frames[i];
        ghost var before := name[..];
        Update(f.inputDelayFinished, f.selectionCooldownFinished, f.keys);
        if !isRunning && isNewRecord {
          assert |before| == NAME_LENGTH && AllLetters(before) &&
                 highScores == Some(SavedTable(old(highScores).value, Score(before, score))) &&
                 saved == old(saved) + [highScores.value];
        }
        if f.interrupted {
          return EndGame;
        }
        i := i + 1;
      }
      return EndGame;
    }

    /** Runs the screen and returns the next screen: the value of
        nextScreenTpe, whatever the inherited loop reported. */
    method Run(frames: seq<Frame>) returns (next: ScreenType)
      requires Valid()
      modifies this, name
      ensures Valid()
      ensures next == nextScreenTpe
      ensures var k := StopFrame(frames);
              !isRunning <==> k < |frames| && Exits(frames[k])
      ensures var k := StopFrame(frames);
              next == if k < |frames| && Exits(frames[k]) then ExitScreen(frames[k].keys) else old(nextScreenTpe)
      ensures |saved| == |old(saved)| + (if !isRunning && isNewRecord then 1 else 0)
      ensures saved[..|old(saved)|] == old(saved)
      ensures !(!isRunning && isNewRecord) ==> highScores == old(highScores)
      ensures !isRunning && isNewRecord ==>
                exists nm :: |nm| == NAME_LENGTH && AllLetters(nm) &&
                  highScores == Some(SavedTable(old(highScores).value, Score(nm, score))) &&
                  saved == old(saved) + [highScores.value]
      ensures !isRunning && isNewRecord ==>
                SortedDesc(highScores.value) &&
                (|old(highScores).value| <= MAX_HIGH_SCORE_NUM ==> |highScores.value| <= MAX_HIGH_SCORE_NUM)
    {
      var ignored := LoopRun(frames);
      next := nextScreenTpe;
    }
  }
}
